=== FILE: README.md ===
# RFID checkout firmware — a Dafny model

`smart.c` is firmware for an LPC2148 board. It receives RFID tag identifiers
over UART0, one line at a time, and looks each one up in a fixed table of
four products (Milk, Bread, Eggs, Butter). It is meant to add the matched
product's price to a running total, show the product, its price and the new
total on the LCD, and send the product and the new total (under both `Price:`
and `Total:`) on the serial line. Any other line is reported as
"Unknown RFID Tag". As written, no tag ever matches (see Findings).

The model covers the product table, `check_and_add_product` and the
character loop of `main`. Its modules:

- `CStrings`: the C-string reading that `strcmp` and the output routines do, i.e. the characters before the first NUL.
- `Format`: `sprintf("%.2f")` on amounts held as whole cents. It comes with a parser and a round trip.
- `Catalog`: the product table and the first-match scan over it. It has two versions:
  - the lookup the code evidently intends;
  - the lookup as the memory layout actually makes `strcmp` behave (see Findings).
- `Checkout`: one call of `check_and_add_product`. The result is the new total, the serial transcript and the text written to the LCD since the last `LCD_Clear` call. `CheckAndAdd` uses the intended lookup and `AsWrittenCheckAndAdd` the lookup as written; both end in the same `Report`.
- `Reader`: the `while (1)` loop.
  - `Step` handles one received character, and `Run` folds it over a finite input.
  - `MainLoop` is the imperative loop with its 13-slot buffer. It is proved equal to `Run`.
  - The line-level view (`Lines`, `Pending`, `Replay`) explains what the loop computes.
  - `Reader` is generic in the routine the buffer is handed to (`Checker`). `Firmware(catalog)` plugs in `CheckAndAdd`, and `AsWrittenFirmware()` plugs in `AsWrittenCheckAndAdd`.
- `Scenarios`: whole-input properties of the firmware, and the concrete streams `123456789ABC\n23456789ABCD\n` and `000000000000\n`.

Prices are whole cents: 150, 75, 200 and 120. The total is a natural number
of cents.

## Intent and code

The source's own comments describe the intent:
- `rfid` holds the "RFID tag (unique identifier)" (smart.c:19);
- a tag is `RFID_TAG_LENGTH` 12 characters (smart.c:33);
- the input buffer holds "12 characters + null terminator" (smart.c:143).

So a received 12-character tag is meant to be compared with a record's
12-character identifier, and a catalogued tag is meant to sell its product.
The code does not do that. `rfid` is declared `char[12]` and initialised with
12-character identifiers, so no terminator is stored. `strcmp` therefore
compares the received line against the identifier followed by the product
name. The model follows the code in `Catalog.AsWrittenLookup` and
`Checkout.AsWrittenCheckAndAdd`, proves that the loop as written never sells
anything (`Scenarios.AsWrittenSellsNothing`), and records the discrepancy
under Findings. The rest of the model uses the intended lookup,
`Catalog.Lookup`.

## Model

| member | source | states |
|---|---|---|
| CStrings.CStr | smart.c:70 | the string a C routine reads from a buffer is a prefix of it, holds no NUL and ends at the first NUL or at the end of the buffer |
| CStrings.CStrStopsAtNul | smart.c:155 | nothing written after a terminator is ever read |
| CStrings.CStrRunsOn | smart.c:19 | a field with no NUL in it is read in full and reading continues into the memory after it |
| Format.FmtShape | smart.c:76 | `%.2f` text is digits with exactly one point, third from the end |
| Format.FmtRoundTrip | smart.c:76 | parsing the printed amount gives back the amount: printing loses nothing |
| Format.FmtInjective | smart.c:81 | two amounts print the same text exactly when they are equal |
| Format.FmtFitsPriceBuffer | smart.c:67 | the printed amount plus its terminator fits the 10-byte `price_str` exactly when it is below 1,000,000.00 |
| Catalog.ProductsShape | smart.c:25-30 | the table has four records; every name fits `char[20]` with its terminator; every identifier is 12 characters without NUL; prices are positive; identifiers are pairwise distinct |
| Catalog.ProductsDistinct | smart.c:25-30 | no two records share an identifier |
| Catalog.ProductTagsFit | smart.c:26-29 | every identifier is exactly 12 digits and capital letters, and so fills `rfid[12]` completely |
| Catalog.Find | smart.c:69-70 | the scan returns the first index from `from` on whose key equals the tag, and nothing earlier matches; it returns none exactly when no index matches |
| Catalog.Lookup | smart.c:69-70 | intended lookup: the first record in table order whose identifier equals the tag; none exactly when no identifier equals it |
| Catalog.LookupUnique | smart.c:69-70 | with distinct identifiers, the lookup yields `i` if and only if record `i`'s identifier is the tag |
| Catalog.LookupFindsEveryTag | smart.c:69-70 | every identifier of the table finds its own record |
| Catalog.OnlyFullLengthKeysMatch | smart.c:70 | a proper prefix of an identifier, or any tag not 12 characters long, matches nothing |
| Catalog.SaleValue | smart.c:69-80 | the amount a tag adds is the first matching record's price, or 0 when nothing matches |
| Catalog.StoredKey | smart.c:18-20 | what `strcmp` reads from a record: the identifier if it is shorter than 12 characters, the identifier followed by the name if it is exactly 12 |
| Catalog.AsWrittenLookup | smart.c:69-70 | the lookup as the code performs it: the first record whose `rfid` field, read as a C string, equals the tag; none exactly when no record's does |
| Catalog.AsWrittenNeverMatches | smart.c:70 | as written, no tag of at most 12 characters matches any record |
| Catalog.AsWrittenMissesMilk | smart.c:26 | Milk's own identifier is unknown to the as-written lookup and found by the intended one |
| Checkout.CheckAndAddSells | smart.c:69-91 | on the first match: the total grows by the record's price; the serial line carries the name and the new total under both Price and Total; the text written to the LCD holds the name, the record's own price and the new total |
| Checkout.CheckAndAddRejects | smart.c:94-96 | when no identifier equals the tag: total unchanged, serial `Unknown RFID Tag\n`, LCD text `Unknown RFID Tag` |
| Checkout.Report | smart.c:71-96 | the report is the unknown-tag one (total kept, `Unknown RFID Tag\n` on serial and `Unknown RFID Tag` on the LCD) exactly when the scan found nothing |
| Checkout.AsWrittenCheckAndAdd | smart.c:66-97 | as written, every key the input buffer can hold gets the unknown-tag report and leaves the total unchanged |
| Checkout.CheckAndAddTotal | smart.c:80 | the total grows by exactly the tag's sale value; with the table's positive prices it changes exactly when the tag is known |
| Checkout.SerialPriceIsTotal | smart.c:76-90 | because `price_str` is reused, the serial Price field shows the new total; it equals the item's price exactly when the previous total was zero |
| Reader.Step | smart.c:151-158 | a non-newline character is appended while the buffer holds fewer than 12 characters and dropped otherwise, with no output; a newline hands the terminated buffer to the checker and empties the buffer; the index stays within 0..12 |
| Reader.FullBufferDropsChar | smart.c:152 | on a full buffer, a non-newline character changes nothing and sends nothing |
| Reader.Truncate | smart.c:152-153 | the buffer keeps the first min(n, 12) characters of a line |
| Reader.KeyIsBufferWithoutNul | smart.c:155-156 | a buffer without NUL is handed over whole |
| Reader.KeyLength | smart.c:155-156 | the C string handed to `check_and_add_product` is never longer than the buffered characters, so at most 12 |
| Reader.TerminatedKey | smart.c:155-156 | writing the terminator at `index` makes the checker see exactly the first `index` buffered characters, up to any NUL among them |
| Reader.Run | smart.c:150-159 | over any finite input, the buffer index never leaves 0..12 |
| Reader.RunAppend | smart.c:150-159 | running on `x + y` is running on `x` and then on `y`, with transcripts concatenated |
| Reader.RunSnoc | smart.c:150-159 | running on one more character is one more step |
| Reader.LinesPartition | smart.c:150-159 | the complete lines, each with its newline, followed by the pending line, give back the input exactly |
| Reader.PendingIsSuffix | smart.c:150-159 | the pending line is the tail of the input after its last newline |
| Reader.RunIsReplay | smart.c:150-159 | from an empty buffer, the loop ends in the state of checking each complete line's first 12 characters in turn, with their transcripts in order, and the buffer holds the first 12 characters of the pending line |
| Reader.ReplayTotal | smart.c:80 | replaying lines adds exactly the sum of their sale values to the total |
| Reader.TotalIsSumOfSales | smart.c:150-159 | the running total after any input is the start total plus the prices matched by its complete lines, a repeated tag counting every time |
| Reader.FeedLine | smart.c:152-153 | newline-free input only fills the buffer with its first 12 characters and sends nothing |
| Reader.LineDispatch | smart.c:154-157 | a line and its newline dispatch the line's first min(n, 12) characters and leave the buffer empty |
| Reader.MainLoop | smart.c:143-158 | the loop over a 13-slot buffer with indeterminate initial contents produces exactly the state and transcript of `Run` |
| Scenarios.ProductsScannable | smart.c:26-29 | every identifier of the table can be sent whole on one line |
| Scenarios.ScanKnownTag | smart.c:150-158 | sending a record's identifier and a newline sells that record, with its serial and LCD reports |
| Scenarios.ScanUnknownLine | smart.c:94-96 | a line whose kept characters match no identifier reports `Unknown RFID Tag` and leaves the total |
| Scenarios.FmtExamples | smart.c:76 | 1.50, 0.75 and 2.25 print as `1.50`, `0.75` and `2.25` |
| Scenarios.MilkThenBread | smart.c:143-158 | `123456789ABC\n23456789ABCD\n` ends with total 2.25 after two match reports; the second report's serial Price field reads 2.25 while the LCD text has 0.75 |
| Scenarios.UnknownTagLeavesTotal | smart.c:94-96 | `000000000000\n` reports `Unknown RFID Tag` once and the total stays 0 |
| Scenarios.RescanAddsTwice | smart.c:80 | scanning the same identifier twice adds its price twice |
| Scenarios.OverlongLineSellsItsPrefix | smart.c:152 | characters after the 12th are dropped, so an identifier followed by stray characters still sells its record |
| Scenarios.PrefixDoesNotSell | smart.c:70 | a line holding only a proper prefix of an identifier leaves the total unchanged |
| Scenarios.AsWrittenReplay | smart.c:66-97 | as written, replaying any lines keeps the total and answers each line with `Unknown RFID Tag\n` |
| Scenarios.AsWrittenSellsNothing | smart.c:143-158 | as written, after any input the total is 0 and the serial transcript is `Unknown RFID Tag\n` once per complete line |

## Left out

- UART0 and LCD drivers (`UART0_Init`, `UART0_SendChar`, `UART0_ReceiveChar`, `LCD_Init`, `LCD_Command`, `LCD_Data`, `LCD_Clear`; smart.c:38-56, 100-133). These are register I/O.
  - Received characters are the `input` parameter.
  - Serial output is a string.
  - The LCD is modelled as the text passed to `LCD_DisplayString` since the last `LCD_Clear` call, not as what the panel shows.
- `LCD_Command` and `LCD_Data` (smart.c:109-123) put only bits 2-7 of each byte on the bus (`& 0xFC`). The clear command 0x01 in `LCD_Clear` and `LCD_Init` therefore goes out as 0x00, and every character loses its two low bits. What the panel actually shows, clearing included, is not modelled.
- `UART0_SendString` and `LCD_DisplayString` (smart.c:59-63, 125-129) are modelled only through the C-string reading they share with `strcmp`. Every string the firmware passes them contains no NUL, so they send it whole.
- `delay` (smart.c:136-139). It is a busy-wait with no observable effect.
- The LCD's cursor and line layout (16 characters, `MAX_LCD_LINES`) are not modelled. A `\n` written to the LCD is kept as a character of the display text.
- Checkout.CheckAndAdd: the `float` total and `%.2f` rounding are replaced by exact whole cents. A long run of float additions can drift from the exact sum. The model does not reproduce that.
- Checkout.CheckAndAdd: `sprintf` into the 10-byte `price_str` overflows once the total reaches 1,000,000.00. The model formats any amount; `Format.FmtFitsPriceBuffer` states the exact bound instead.
- Reader.Run: the `while (1)` loop never ends. The model runs it over every finite prefix of the input, and `MainLoop` stops when the input is exhausted.
- Names of 20 characters would have no terminator either. `Catalog.Fits` requires names shorter than the field, which the table satisfies.
- `Catalog.Fits` also requires a non-empty name. With an empty name, the C string read from a full `rfid` field would stop at the name's terminator and equal the identifier, so the as-written lookup would match. All four names are non-empty.

## Findings

| source | as written | input that shows it | evidently intended | confidence | as-written member | corrected member |
|---|---|---|---|---|---|---|
| smart.c:19 | `char rfid[12]` holds the 12-character identifiers with no terminator. `strcmp(products[i].rfid, rfid_tag)` at line 70 reads on into `name`, so the key compared is e.g. `123456789ABCMilk`. No line the 13-byte buffer can hold (at most 12 characters) ever matches. | `123456789ABC\n` reports `Unknown RFID Tag` and leaves the total at 0; for every input the total stays 0 | `rfid[13]` (or a length-bounded compare), so that sending a catalogued identifier sells its product | high for any compiler that lays out `rfid` and `name` contiguously; not executed | Catalog.AsWrittenLookup (with Catalog.AsWrittenNeverMatches, Catalog.AsWrittenMissesMilk, Scenarios.AsWrittenSellsNothing) | Catalog.Lookup (with Catalog.LookupFindsEveryTag, Catalog.LookupUnique) |

=== FILE: catalog.dfy ===
/**
 * The product table (`struct Product products[]`) and the scan of
 * `check_and_add_product` that looks a tag up in it.
 */
module Catalog {
  import opened Options
  import opened CStrings

  /** RFID_TAG_LENGTH, which is also the declared width of the `rfid` field. */
  const RfidLength := 12
  /** Declared width of the `name` field. */
  const NameWidth := 20

  /** One record of the table; prices are whole cents. */
  datatype Product = Product(rfid: string, name: string, price: nat)

  /** The four records of the table, in table order. */
  const Products: seq<Product> := [
    Product("123456789ABC", "Milk", 150),
    Product("23456789ABCD", "Bread", 75),
    Product("3456789ABCDE", "Eggs", 200),
    Product("456789ABCDEF", "Butter", 120)
  ]

  /**
   * A record whose initialisers fit its fields; the name is non-empty and
   * always keeps room for its terminator. The non-empty name is what keeps
   * the as-written lookup from matching: an empty name would end the C
   * string read from a full `rfid` field right after the identifier.
   */
  predicate Fits(p: Product) {
    && |p.rfid| <= RfidLength && NUL !in p.rfid
    && 0 < |p.name| < NameWidth && NUL !in p.name
  }

  predicate Distinct(catalog: seq<Product>) {
    forall i, j :: 0 <= i < j < |catalog| ==> catalog[i].rfid != catalog[j].rfid
  }

  /** The characters the table's tags are written in: digits and capital letters. */
  predicate TagChar(c: char) {
    '0' <= c <= '9' || 'A' <= c <= 'Z'
  }

  // The facts about the table are proved in four small steps (tags, their
  // absence of NUL, names and prices, distinctness) and gathered in
  // `ProductsShape`, the lemma the rest of the model calls: one proof over
  // all four records at once is needlessly expensive for the solver.

  /** Step of `ProductsShape`: every tag is exactly twelve digits and capital letters. */
  lemma ProductTagsFit()
    ensures |Products| == 4
    ensures forall i :: 0 <= i < |Products| ==> |Products[i].rfid| == RfidLength
    ensures forall i, k :: 0 <= i < |Products| && 0 <= k < |Products[i].rfid| ==> TagChar(Products[i].rfid[k])
  {
    forall i, k | 0 <= i < |Products| && 0 <= k < |Products[i].rfid|
      ensures TagChar(Products[i].rfid[k])
    {
    }
  }

  /** Step of `ProductsShape`: no tag of the table contains a NUL. */
  lemma ProductTagsHaveNoNul()
    ensures forall i :: 0 <= i < |Products| ==> NUL !in Products[i].rfid
  {
    ProductTagsFit();
  }

  /** Step of `ProductsShape`: every name leaves room for its terminator, and every price is positive. */
  lemma ProductNamesFit()
    ensures forall i :: 0 <= i < |Products| ==>
      0 < |Products[i].name| < NameWidth && NUL !in Products[i].name && Products[i].price > 0
  {
    forall i | 0 <= i < |Products|
      ensures 0 < |Products[i].name| < NameWidth && NUL !in Products[i].name && Products[i].price > 0
    {
    }
  }

  /** No two records share a tag: each begins with a different character. */
  lemma ProductsDistinct()
    ensures Distinct(Products)
  {
    forall i, j | 0 <= i < j < |Products|
      ensures Products[i].rfid != Products[j].rfid
    {
      assert Products[i].rfid[0] != Products[j].rfid[0];
    }
  }

  /** The table as the rest of the model uses it. */
  lemma ProductsShape()
    ensures |Products| == 4
    ensures forall i :: 0 <= i < |Products| ==> Fits(Products[i]) && |Products[i].rfid| == RfidLength
    ensures forall i :: 0 <= i < |Products| ==> Products[i].price > 0
    ensures Distinct(Products)
  {
    ProductTagsFit();
    ProductTagsHaveNoNul();
    ProductNamesFit();
    ProductsDistinct();
  }

  /**
   * The `for` loop over the table from entry `from` on: the index of the
   * first entry whose compared key equals `key`, or `None` once the table
   * is exhausted.
   */
  function Find(keys: seq<string>, key: string, from: nat): (r: Option<nat>)
    requires from <= |keys|
    ensures r.Some? ==> from <= r.value < |keys| && keys[r.value] == key
    ensures r.Some? ==> forall j :: from <= j < r.value ==> keys[j] != key
    ensures r.None? <==> forall j :: from <= j < |keys| ==> keys[j] != key
    decreases |keys| - from
  {
    if from == |keys| then None
    else if keys[from] == key then Some(from)
    else Find(keys, key, from + 1)
  }

  function Ids(catalog: seq<Product>): (ids: seq<string>)
    ensures |ids| == |catalog|
    ensures forall i :: 0 <= i < |catalog| ==> ids[i] == catalog[i].rfid
  {
    seq(|catalog|, i requires 0 <= i < |catalog| => catalog[i].rfid)
  }

  /**
   * The intended lookup: entries are examined in table order and the
   * first one whose identifier equals `key` wins.
   */
  function Lookup(catalog: seq<Product>, key: string): (r: Option<nat>)
    ensures r.Some? ==> r.value < |catalog| && catalog[r.value].rfid == key
    ensures r.Some? ==> forall j :: 0 <= j < r.value ==> catalog[j].rfid != key
    ensures r.None? <==> forall j :: 0 <= j < |catalog| ==> catalog[j].rfid != key
  {
    Find(Ids(catalog), key, 0)
  }

  /** With distinct identifiers the first match is the only match. */
  lemma LookupUnique(catalog: seq<Product>, key: string, i: nat)
    requires Distinct(catalog)
    ensures Lookup(catalog, key) == Some(i) <==> i < |catalog| && catalog[i].rfid == key
  {
    var r := Lookup(catalog, key);
    if i < |catalog| && catalog[i].rfid == key {
      assert r.Some?;
    }
  }

  /** Every identifier of the table finds its own record. */
  lemma LookupFindsEveryTag(i: nat)
    requires i < |Products|
    ensures Lookup(Products, Products[i].rfid) == Some(i)
  {
    ProductsShape();
    LookupUnique(Products, Products[i].rfid, i);
  }

  /**
   * The comparison is on the whole key: a proper prefix of an identifier,
   * or any key of another length, finds nothing.
   */
  lemma OnlyFullLengthKeysMatch(key: string)
    requires |key| != RfidLength
    ensures Lookup(Products, key) == None
  {
    ProductsShape();
  }

  /** The price a key adds to the total: the first matching record's price, or nothing. */
  function SaleValue(catalog: seq<Product>, key: string): (v: nat)
    ensures forall i ::
      (0 <= i < |catalog| && catalog[i].rfid == key && forall j :: 0 <= j < i ==> catalog[j].rfid != key)
      ==> v == catalog[i].price
    ensures (forall i :: 0 <= i < |catalog| ==> catalog[i].rfid != key) ==> v == 0
  {
    match Lookup(catalog, key)
    case Some(i) => catalog[i].price
    case None => 0
  }

  // ---------------------------------------------------------------------------
  // The table as laid out in memory.

  /** A `char[width]` field initialised with `s`: the rest of the field is zero-filled. */
  function Field(s: string, width: nat): (f: seq<char>)
    requires |s| <= width
    ensures |f| == width && f[..|s|] == s
    ensures forall k :: |s| <= k < width ==> f[k] == NUL
  {
    s + seq(width - |s|, _ => NUL)
  }

  /**
   * What `strcmp(products[i].rfid, …)` actually compares against: the C
   * string that starts at the `rfid` field. A 12-character identifier
   * fills `char rfid[12]` with no terminator, so reading runs on into the
   * adjacent `name` field.
   */
  function StoredKey(p: Product): (k: string)
    requires Fits(p)
    ensures |p.rfid| < RfidLength ==> k == p.rfid
    ensures |p.rfid| == RfidLength ==> k == p.rfid + p.name
  {
    var memory := Field(p.rfid, RfidLength) + Field(p.name, NameWidth);
    if |p.rfid| < RfidLength then
      CStrStopsAtNul(p.rfid, seq(RfidLength - |p.rfid| - 1, _ => NUL) + Field(p.name, NameWidth));
      assert memory == p.rfid + [NUL] + (seq(RfidLength - |p.rfid| - 1, _ => NUL) + Field(p.name, NameWidth));
      CStrWithoutNul(p.rfid);
      CStr(memory)
    else
      assert Field(p.rfid, RfidLength) == p.rfid;
      CStrRunsOn(p.rfid, Field(p.name, NameWidth));
      CStrStopsAtNul(p.name, seq(NameWidth - |p.name| - 1, _ => NUL));
      assert Field(p.name, NameWidth) == p.name + [NUL] + seq(NameWidth - |p.name| - 1, _ => NUL);
      CStrWithoutNul(p.name);
      CStr(memory)
  }

  function StoredKeys(catalog: seq<Product>): (keys: seq<string>)
    requires forall i :: 0 <= i < |catalog| ==> Fits(catalog[i])
    ensures |keys| == |catalog|
    ensures forall i :: 0 <= i < |catalog| ==> keys[i] == StoredKey(catalog[i])
  {
    seq(|catalog|, i requires 0 <= i < |catalog| => StoredKey(catalog[i]))
  }

  /** The lookup the firmware performs as written. */
  function AsWrittenLookup(catalog: seq<Product>, key: string): (r: Option<nat>)
    requires forall i :: 0 <= i < |catalog| ==> Fits(catalog[i])
    ensures r.Some? ==> r.value < |catalog| && StoredKey(catalog[r.value]) == key
    ensures r.Some? ==> forall j :: 0 <= j < r.value ==> StoredKey(catalog[j]) != key
    ensures r.None? <==> forall j :: 0 <= j < |catalog| ==> StoredKey(catalog[j]) != key
  {
    Find(StoredKeys(catalog), key, 0)
  }

  /**
   * As written, no key the 13-byte input buffer can hold (at most 12
   * characters) matches any record of the table.
   */
  lemma AsWrittenNeverMatches(key: string)
    requires |key| <= RfidLength
    ensures AsWrittenLookup(Products, key) == None
  {
    ProductsShape();
    forall j | 0 <= j < |Products|
      ensures StoredKey(Products[j]) != key
    {
      assert |StoredKey(Products[j])| > RfidLength;
    }
  }

  /** The tag of "Milk" is unknown to the table as written, and found by the intended lookup. */
  lemma AsWrittenMissesMilk()
    ensures AsWrittenLookup(Products, "123456789ABC") == None
    ensures Lookup(Products, "123456789ABC") == Some(0)
  {
    AsWrittenNeverMatches("123456789ABC");
    LookupFindsEveryTag(0);
  }
}

=== FILE: checkout.dfy ===
/**
 * `check_and_add_product`: look the received tag up, add the matched
 * price to the running total and report on the LCD and the serial line.
 */
module Checkout {
  import opened Options
  import opened Format
  import opened Catalog

  /**
   * The new running total, the text sent on the serial line, and the text
   * written to the LCD since the last `LCD_Clear` call (each report starts
   * with one, so this is the text the report passes to `LCD_DisplayString`).
   */
  datatype Outcome = Outcome(total: nat, serial: string, display: string)

  const UnknownTag := "Unknown RFID Tag"

  /** The serial transcript of a match, given the name and the text last left in `price_str`. */
  function MatchSerial(name: string, priceStr: string): string {
    "\nProduct: " + name + "\nPrice: " + priceStr + "\nTotal: " + priceStr
  }

  /** The text written to the LCD on a match, given the name, the item's price and the new total as printed. */
  function MatchDisplay(name: string, priceStr: string, totalStr: string): string {
    "Product: " + name + "\nPrice: " + priceStr + "\nTotal: " + totalStr
  }

  /**
   * One call with running total `total` on the received tag `key`, the
   * C string of the input buffer that `strcmp` reads. The shared
   * `price_str` is first formatted with the item's price and written to
   * the LCD, then overwritten with the new total before anything is sent on
   * the serial line, so the serial "Price:" field carries the total.
   */
  function CheckAndAdd(catalog: seq<Product>, total: nat, key: string): (o: Outcome)
    ensures total <= o.total
  {
    Report(catalog, total, Lookup(catalog, key))
  }

  /**
   * The body of `check_and_add_product` once the scan has ended: on entry
   * `found` of the table a match report, and the unknown-tag report when
   * the scan found nothing.
   */
  function Report(catalog: seq<Product>, total: nat, found: Option<nat>): (o: Outcome)
    requires found.Some? ==> found.value < |catalog|
    ensures found.None? <==> o == Outcome(total, UnknownTag + "\n", UnknownTag)
  {
    match found
    case Some(i) =>
      var p := catalog[i];
      var itemPriceStr := Fmt(p.price);
      var newTotal := total + p.price;
      var priceStr := Fmt(newTotal);
      Outcome(newTotal, MatchSerial(p.name, priceStr), MatchDisplay(p.name, itemPriceStr, priceStr))
    case None =>
      Outcome(total, UnknownTag + "\n", UnknownTag)
  }

  /**
   * `check_and_add_product` on its own table as the code is written: the
   * scan compares against the C strings stored at the `rfid` fields.
   * A key the input buffer can hold always gets the unknown-tag report.
   */
  function AsWrittenCheckAndAdd(total: nat, key: string): (o: Outcome)
    ensures |key| <= RfidLength ==> o == Outcome(total, UnknownTag + "\n", UnknownTag)
  {
    ProductsShape();
    assert |key| <= RfidLength ==> AsWrittenLookup(Products, key) == None by {
      if |key| <= RfidLength {
        AsWrittenNeverMatches(key);
      }
    }
    Report(Products, total, AsWrittenLookup(Products, key))
  }

  /**
   * A tag whose first equal identifier (in table order) is entry `i`
   * sells that record: the total grows by its price, the serial line
   * carries its name and the new total twice, and the text written to the
   * LCD holds its name, its own price and the new total.
   */
  lemma CheckAndAddSells(catalog: seq<Product>, total: nat, i: nat)
    requires i < |catalog|
    requires forall j :: 0 <= j < i ==> catalog[j].rfid != catalog[i].rfid
    ensures var o := CheckAndAdd(catalog, total, catalog[i].rfid);
      && o.total == total + catalog[i].price
      && o.serial == MatchSerial(catalog[i].name, Fmt(total + catalog[i].price))
      && o.display == MatchDisplay(catalog[i].name, Fmt(catalog[i].price), Fmt(total + catalog[i].price))
  {
    assert Lookup(catalog, catalog[i].rfid) == Some(i);
  }

  /** A tag equal to no identifier of the table leaves the total and reports "Unknown RFID Tag". */
  lemma CheckAndAddRejects(catalog: seq<Product>, total: nat, key: string)
    requires forall i :: 0 <= i < |catalog| ==> catalog[i].rfid != key
    ensures CheckAndAdd(catalog, total, key) == Outcome(total, UnknownTag + "\n", UnknownTag)
  {
  }

  /**
   * The total grows by exactly the sale value of the tag, and with the
   * table's positive prices it grows exactly when the tag is known.
   */
  lemma CheckAndAddTotal(catalog: seq<Product>, total: nat, key: string)
    ensures CheckAndAdd(catalog, total, key).total == total + SaleValue(catalog, key)
    ensures catalog == Products ==>
      (CheckAndAdd(catalog, total, key).total == total <==> Lookup(catalog, key) == None)
  {
    ProductsShape();
  }

  /**
   * On a match the serial "Price:" field is not the item's price: it is
   * the new total, printed again under "Total:". The LCD text, written
   * before `price_str` is reused, carries the item's own price under
   * "Price:". Unless the total was zero before the scan, the serial Price field differs from the
   * item's price.
   */
  lemma SerialPriceIsTotal(total: nat, i: nat)
    requires i < |Products|
    ensures var o := CheckAndAdd(Products, total, Products[i].rfid);
      && o.serial == MatchSerial(Products[i].name, Fmt(total + Products[i].price))
      && o.display == MatchDisplay(Products[i].name, Fmt(Products[i].price), Fmt(total + Products[i].price))
      && (Fmt(total + Products[i].price) == Fmt(Products[i].price) <==> total == 0)
  {
    var p := Products[i];
    LookupFindsEveryTag(i);
    CheckAndAddSells(Products, total, i);
    FmtInjective(total + p.price, p.price);
  }
}

=== FILE: cstrings.dfy ===
/**
 * C strings over character buffers. A C function that takes a `char *`
 * (`strcmp`, `UART0_SendString`, `LCD_DisplayString`) sees only the
 * characters before the first NUL of the memory it is pointed at.
 */
module CStrings {

  const NUL: char := 0 as char

  /** The string a buffer holds when read as a C string. */
  function CStr(buf: seq<char>): (s: string)
    ensures |s| <= |buf|
    ensures s == buf[..|s|]
    ensures NUL !in s
    ensures |s| < |buf| ==> buf[|s|] == NUL
  {
    if buf == [] || buf[0] == NUL then [] else [buf[0]] + CStr(buf[1..])
  }

  /** A buffer without NUL is read in full. */
  lemma CStrWithoutNul(buf: seq<char>)
    requires NUL !in buf
    ensures CStr(buf) == buf
  {
  }

  /** Whatever follows a terminator is never read. */
  lemma {:induction false} CStrStopsAtNul(prefix: seq<char>, rest: seq<char>)
    ensures CStr(prefix + [NUL] + rest) == CStr(prefix)
  {
    if prefix == [] || prefix[0] == NUL {
    } else {
      assert (prefix + [NUL] + rest)[1..] == prefix[1..] + [NUL] + rest;
      CStrStopsAtNul(prefix[1..], rest);
    }
  }

  /** Reading runs on from a field that holds no NUL into the memory after it. */
  lemma {:induction false} CStrRunsOn(field: seq<char>, next: seq<char>)
    requires NUL !in field
    ensures CStr(field + next) == field + CStr(next)
  {
    if field == [] {
      assert field + next == next;
    } else {
      assert (field + next)[1..] == field[1..] + next;
      CStrRunsOn(field[1..], next);
      assert field == [field[0]] + field[1..];
    }
  }
}

=== FILE: format.dfy ===
/**
 * `sprintf(price_str, "%.2f", x)` on amounts held as whole cents: the whole
 * units in decimal, a point, and exactly two digits of cents.
 */
module Format {
  import opened Options

  /** Size of the `price_str` scratch buffer, terminator included. */
  const PriceBufferSize := 10

  predicate IsDigit(c: char) {
    '0' <= c <= '9'
  }

  predicate AllDigits(s: string) {
    forall i :: 0 <= i < |s| ==> IsDigit(s[i])
  }

  function DigitValue(c: char): nat
    requires IsDigit(c)
  {
    c as int - '0' as int
  }

  function Digit(d: nat): (c: char)
    requires d < 10
    ensures IsDigit(c) && DigitValue(c) == d
  {
    (d + '0' as int) as char
  }

  /** The value of a decimal numeral, most significant digit first. */
  function NumeralValue(s: string): nat
    requires AllDigits(s)
  {
    if s == [] then 0 else 10 * NumeralValue(s[..|s| - 1]) + DigitValue(s[|s| - 1])
  }

  /** The decimal numeral of `n` without leading zeros. */
  function Numeral(n: nat): string {
    if n < 10 then [Digit(n)] else Numeral(n / 10) + [Digit(n % 10)]
  }

  lemma {:induction false} NumeralDigits(n: nat)
    ensures |Numeral(n)| >= 1 && AllDigits(Numeral(n))
    ensures |Numeral(n)| > 1 ==> Numeral(n)[0] != '0'
  {
    if n >= 10 {
      NumeralDigits(n / 10);
    }
  }

  lemma {:induction false} NumeralRoundTrip(n: nat)
    ensures AllDigits(Numeral(n)) && NumeralValue(Numeral(n)) == n
  {
    NumeralDigits(n);
    if n >= 10 {
      var s := Numeral(n);
      NumeralDigits(n);
      NumeralDigits(n / 10);
      assert s[..|s| - 1] == Numeral(n / 10);
      NumeralRoundTrip(n / 10);
    }
  }

  function Pow10(k: nat): (p: nat)
    ensures p >= 1
  {
    if k == 0 then 1 else 10 * Pow10(k - 1)
  }

  /** A numeral has at most `k` digits exactly when its value is below 10^k. */
  lemma {:induction false} NumeralLength(n: nat, k: nat)
    requires k >= 1
    ensures |Numeral(n)| <= k <==> n < Pow10(k)
  {
    if n >= 10 {
      if k == 1 {
        assert |Numeral(n)| == |Numeral(n / 10)| + 1;
      } else {
        NumeralLength(n / 10, k - 1);
      }
    } else {
      assert Pow10(k) == 10 * Pow10(k - 1);
    }
  }

  /** The text `"%.2f"` prints for an amount of `cents`. */
  function Fmt(cents: nat): string {
    Numeral(cents / 100) + "." + [Digit(cents / 10 % 10), Digit(cents % 10)]
  }

  /** The printed amount is all digits except for its one point, third from the end. */
  lemma FmtShape(cents: nat)
    ensures var s := Fmt(cents);
      && |s| >= 4 && s[|s| - 3] == '.'
      && forall i :: 0 <= i < |s| ==> (IsDigit(s[i]) <==> i != |s| - 3)
  {
    NumeralDigits(cents / 100);
  }

  /** Reads back an amount printed by `Fmt`; `None` for any other text. */
  function ParseAmount(s: string): (r: Option<nat>)
    ensures r.Some? ==> |s| >= 4 && s[|s| - 3] == '.'
  {
    if |s| >= 4 && s[|s| - 3] == '.' && AllDigits(s[..|s| - 3]) && IsDigit(s[|s| - 2]) && IsDigit(s[|s| - 1]) then
      Some(100 * NumeralValue(s[..|s| - 3]) + 10 * DigitValue(s[|s| - 2]) + DigitValue(s[|s| - 1]))
    else
      None
  }

  /** Printing an amount loses nothing: parsing the text gives the amount back. */
  lemma FmtRoundTrip(cents: nat)
    ensures ParseAmount(Fmt(cents)) == Some(cents)
  {
    var s := Fmt(cents);
    assert s[..|s| - 3] == Numeral(cents / 100);
    NumeralRoundTrip(cents / 100);
    FmtShape(cents);
  }

  /** Two amounts print alike exactly when they are equal. */
  lemma FmtInjective(a: nat, b: nat)
    ensures Fmt(a) == Fmt(b) <==> a == b
  {
    if Fmt(a) == Fmt(b) {
      FmtRoundTrip(a);
      FmtRoundTrip(b);
    }
  }

  /**
   * The printed amount and its terminator fit the ten-byte `price_str`
   * exactly when the amount is below one million whole units.
   */
  lemma FmtFitsPriceBuffer(cents: nat)
    ensures |Fmt(cents)| + 1 <= PriceBufferSize <==> cents < 100_000_000
  {
    NumeralLength(cents / 100, 6);
    assert Pow10(6) == 1_000_000;
  }
}

=== FILE: options.dfy ===
/** The optional value used for "found / not found" answers. */
module Options {

  datatype Option<+T> = None | Some(value: T)
}

=== FILE: reader.dfy ===
/**
 * The input loop of `main`: characters received on the serial line are
 * collected into a 13-byte buffer (12 characters and a terminator); a
 * newline terminates the buffer, hands it to `check_and_add_product` and
 * starts the next line.
 */
module Reader {
  import opened CStrings
  import opened Catalog
  import opened Checkout

  const Newline := '\n'

  /**
   * The running total (`total_price`, in cents), the characters buffered
   * so far (`rfid_buffer[0..index)`) and the text written to the LCD since
   * the last `LCD_Clear` call.
   */
  datatype State = State(total: nat, buf: seq<char>, display: string)

  /** The buffer index never passes RFID_TAG_LENGTH. */
  predicate Valid(s: State) {
    |s.buf| <= RfidLength
  }

  /** The state after `LCD_Init`: nothing sold, nothing buffered, nothing written to the LCD. */
  const Start := State(0, [], [])

  /**
   * The routine a terminated buffer is handed to: from the running total
   * and the C string of the buffer, the report it makes.
   */
  type Checker = (nat, string) -> Outcome

  /** `check_and_add_product` over a product table. */
  function Firmware(catalog: seq<Product>): Checker {
    (total: nat, key: string) => CheckAndAdd(catalog, total, key)
  }

  /** `check_and_add_product` as written, on its own table. */
  function AsWrittenFirmware(): Checker {
    (total: nat, key: string) => AsWrittenCheckAndAdd(total, key)
  }

  /** The state after some input, with the text sent on the serial line meanwhile. */
  datatype Reaction = Reaction(state: State, serial: string)

  /** The characters of a line that the buffer keeps: the first twelve. */
  function Truncate(line: string): (t: string)
    ensures |t| <= RfidLength && |t| <= |line| && t == line[..|t|]
    ensures |t| < RfidLength ==> t == line
  {
    if |line| <= RfidLength then line else line[..RfidLength]
  }

  /** The C string `check_and_add_product` receives for a buffer holding `buf` and its terminator. */
  function Key(buf: seq<char>): string {
    CStr(buf + [NUL])
  }

  /** The state a report leaves: its total and LCD text, and an emptied buffer. */
  function After(o: Outcome): State {
    State(o.total, [], o.display)
  }

  /** One pass of the `while (1)` body on the received character `c`. */
  function Step(check: Checker, s: State, c: char): (r: Reaction)
    requires Valid(s)
    ensures Valid(r.state)
    ensures c != Newline ==> r == Reaction(s.(buf := Truncate(s.buf + [c])), [])
    ensures c == Newline ==>
              var o := check(s.total, Key(s.buf));
              r == Reaction(After(o), o.serial)
  {
    if c != Newline && |s.buf| < RfidLength then
      Reaction(s.(buf := s.buf + [c]), [])
    else if c == Newline then
      var o := check(s.total, Key(s.buf));
      Reaction(After(o), o.serial)
    else
      Reaction(s, [])
  }

  /** A character other than newline that arrives on a full buffer is dropped. */
  lemma FullBufferDropsChar(check: Checker, s: State, c: char)
    requires Valid(s) && |s.buf| == RfidLength && c != Newline
    ensures Step(check, s, c) == Reaction(s, [])
  {
  }

  /** What is handed over is never longer than what was buffered. */
  lemma KeyLength(buf: seq<char>)
    ensures |Key(buf)| <= |buf|
  {
    CStrStopsAtNul(buf, []);
    assert buf + [NUL] + [] == buf + [NUL];
  }

  /** A buffer holding no NUL is compared in full. */
  lemma KeyIsBufferWithoutNul(buf: seq<char>)
    requires NUL !in buf
    ensures Key(buf) == buf
  {
    CStrWithoutNul(buf);
    CStrStopsAtNul(buf, []);
    assert buf + [NUL] + [] == buf + [NUL];
  }

  /** The loop run over a finite stretch of input. */
  function Run(check: Checker, s: State, input: string): (r: Reaction)
    requires Valid(s)
    ensures Valid(r.state)
    decreases |input|
  {
    if input == [] then
      Reaction(s, [])
    else
      var a := Step(check, s, input[0]);
      var b := Run(check, a.state, input[1..]);
      Reaction(b.state, a.serial + b.serial)
  }

  lemma ConcatAssoc<T>(a: seq<T>, b: seq<T>, c: seq<T>)
    ensures a + (b + c) == (a + b) + c
  {
  }

  /** Running on `x + y` is running on `x` and then on `y`. */
  lemma {:induction false} RunAppend(check: Checker, s: State, x: string, y: string)
    requires Valid(s)
    ensures var a := Run(check, s, x); var b := Run(check, a.state, y);
      Run(check, s, x + y) == Reaction(b.state, a.serial + b.serial)
    decreases |x|
  {
    if x == [] {
      assert x + y == y;
    } else {
      assert (x + y)[0] == x[0];
      assert (x + y)[1..] == x[1..] + y;
      var h := Step(check, s, x[0]);
      RunAppend(check, h.state, x[1..], y);
      var t := Run(check, h.state, x[1..]);
      var b := Run(check, t.state, y);
      ConcatAssoc(h.serial, t.serial, b.serial);
    }
  }

  /** Running on one more character is one more `Step`. */
  lemma RunSnoc(check: Checker, s: State, x: string, c: char)
    requires Valid(s)
    ensures var a := Run(check, s, x); var b := Step(check, a.state, c);
      Run(check, s, x + [c]) == Reaction(b.state, a.serial + b.serial)
  {
    RunAppend(check, s, x, [c]);
    var a := Run(check, s, x);
    var b := Step(check, a.state, c);
    assert [c][1..] == [];
    assert Run(check, a.state, [c]) == Reaction(b.state, b.serial + []);
  }

  // ---------------------------------------------------------------------------
  // The input as lines.

  /** The characters after the last newline: the line still being received. */
  function Pending(input: string): (p: string)
    ensures Newline !in p
  {
    if input == [] then []
    else if input[|input| - 1] == Newline then []
    else Pending(input[..|input| - 1]) + [input[|input| - 1]]
  }

  /** The pending line is the tail of the input. */
  lemma {:induction false} PendingIsSuffix(input: string)
    ensures |Pending(input)| <= |input| && Pending(input) == input[|input| - |Pending(input)|..]
    decreases |input|
  {
    if input != [] && input[|input| - 1] != Newline {
      var init := input[..|input| - 1];
      PendingIsSuffix(init);
      assert input[|input| - |Pending(input)|..] == init[|init| - |Pending(init)|..] + [input[|input| - 1]];
    }
  }

  /** The complete lines of the input, in order, without their newlines. */
  function Lines(input: string): (ls: seq<string>)
    ensures forall k :: 0 <= k < |ls| ==> Newline !in ls[k]
  {
    if input == [] then []
    else if input[|input| - 1] == Newline then Lines(input[..|input| - 1]) + [Pending(input[..|input| - 1])]
    else Lines(input[..|input| - 1])
  }

  /** The lines put back together, each followed by its newline. */
  function Unlines(ls: seq<string>): string {
    if ls == [] then [] else Unlines(ls[..|ls| - 1]) + ls[|ls| - 1] + [Newline]
  }

  /** Splitting into lines and the pending rest loses and invents nothing. */
  lemma {:induction false} LinesPartition(input: string)
    ensures Unlines(Lines(input)) + Pending(input) == input
    decreases |input|
  {
    if input != [] {
      var init := input[..|input| - 1];
      var c := input[|input| - 1];
      LinesPartition(init);
      assert input == init + [c];
      if c == Newline {
        LinesSnocNewline(init);
        var ls := Lines(init) + [Pending(init)];
        assert ls[..|ls| - 1] == Lines(init);
      } else {
        LinesSnocOther(init, c);
        ConcatAssoc(Unlines(Lines(init)), Pending(init), [c]);
      }
    }
  }

  /**
   * The reports the firmware makes for a sequence of complete lines,
   * starting from running total `total` and display text `display`: each
   * line, cut to what the buffer keeps, is checked in turn against the
   * total left by the ones before.
   */
  function Replay(check: Checker, total: nat, display: string, lines: seq<string>): Outcome {
    if lines == [] then Outcome(total, [], display)
    else
      var prev := Replay(check, total, display, lines[..|lines| - 1]);
      var o := check(prev.total, Key(Truncate(lines[|lines| - 1])));
      Outcome(o.total, prev.serial + o.serial, o.display)
  }

  /** The sum of the prices of the catalog records that the lines select. */
  function Sales(catalog: seq<Product>, lines: seq<string>): nat {
    if lines == [] then 0
    else Sales(catalog, lines[..|lines| - 1]) + SaleValue(catalog, Key(Truncate(lines[|lines| - 1])))
  }

  /** The total left by a sequence of lines is the starting total plus their sales. */
  lemma {:induction false} ReplayTotal(catalog: seq<Product>, total: nat, display: string, lines: seq<string>)
    ensures Replay(Firmware(catalog), total, display, lines).total == total + Sales(catalog, lines)
    decreases |lines|
  {
    if lines != [] {
      var prev := Replay(Firmware(catalog), total, display, lines[..|lines| - 1]);
      ReplayTotal(catalog, total, display, lines[..|lines| - 1]);
      CheckAndAddTotal(catalog, prev.total, Key(Truncate(lines[|lines| - 1])));
    }
  }

  /** Truncating after appending one character is truncating the longer line. */
  lemma TruncateSnoc(line: string, c: char)
    ensures Truncate(Truncate(line) + [c]) == Truncate(line + [c])
  {
    if |line| >= RfidLength {
      assert (line + [c])[..RfidLength] == line[..RfidLength];
    }
  }

  /** A newline completes the pending line. */
  lemma LinesSnocNewline(init: string)
    ensures Lines(init + [Newline]) == Lines(init) + [Pending(init)]
    ensures Pending(init + [Newline]) == []
  {
    assert (init + [Newline])[..|init|] == init;
  }

  /** Any other character extends the pending line. */
  lemma LinesSnocOther(init: string, c: char)
    requires c != Newline
    ensures Lines(init + [c]) == Lines(init)
    ensures Pending(init + [c]) == Pending(init) + [c]
  {
    assert (init + [c])[..|init|] == init;
  }

  /** Replaying one more line checks it against the total the others left. */
  lemma ReplaySnoc(check: Checker, total: nat, display: string, ls: seq<string>, line: string)
    ensures var prev := Replay(check, total, display, ls);
      var o := check(prev.total, Key(Truncate(line)));
      Replay(check, total, display, ls + [line]) == Outcome(o.total, prev.serial + o.serial, o.display)
  {
    assert (ls + [line])[..|ls|] == ls;
  }

  /**
   * The character loop, seen line by line: from an empty buffer, the
   * state and the serial transcript after any input are those of
   * replaying its complete lines, and the buffer holds the first twelve
   * characters of the pending line.
   */
  lemma {:induction false} RunIsReplay(check: Checker, s: State, input: string)
    requires s.buf == []
    ensures Replays(check, s, input)
    decreases |input|
  {
    if input != [] {
      var init := input[..|input| - 1];
      assert input == init + [input[|input| - 1]];
      RunIsReplay(check, s, init);
      ReplaysSnoc(check, s, init, input[|input| - 1]);
    }
  }

  /** `Run` from `s` over `input` agrees with replaying its lines, with the pending line buffered. */
  predicate Replays(check: Checker, s: State, input: string)
    requires Valid(s)
  {
    var o := Replay(check, s.total, s.display, Lines(input));
    Run(check, s, input) == Reaction(State(o.total, Truncate(Pending(input)), o.display), o.serial)
  }

  /** One more character keeps `Run` and the line replay in agreement. */
  lemma ReplaysSnoc(check: Checker, s: State, init: string, c: char)
    requires s.buf == [] && Replays(check, s, init)
    ensures Replays(check, s, init + [c])
  {
    if c == Newline {
      ReplaysNewline(check, s, init);
    } else {
      ReplaysOther(check, s, init, c);
    }
  }

  /** A newline hands the pending line to the checker, as the replay of one more line does. */
  lemma ReplaysNewline(check: Checker, s: State, init: string)
    requires s.buf == [] && Replays(check, s, init)
    ensures Replays(check, s, init + [Newline])
  {
    var prev := Replay(check, s.total, s.display, Lines(init));
    var a := Run(check, s, init);
    assert a.state == State(prev.total, Truncate(Pending(init)), prev.display);
    RunSnoc(check, s, init, Newline);
    LinesSnocNewline(init);
    ReplaySnoc(check, s.total, s.display, Lines(init), Pending(init));
  }

  /** Any other character only extends the buffered pending line. */
  lemma ReplaysOther(check: Checker, s: State, init: string, c: char)
    requires s.buf == [] && Replays(check, s, init) && c != Newline
    ensures Replays(check, s, init + [c])
  {
    var prev := Replay(check, s.total, s.display, Lines(init));
    var a := Run(check, s, init);
    var b := Step(check, a.state, c);
    assert Lines(init + [c]) == Lines(init) && Pending(init + [c]) == Pending(init) + [c] by {
      LinesSnocOther(init, c);
    }
    assert b == Reaction(State(prev.total, Truncate(Pending(init) + [c]), prev.display), []) by {
      TruncateSnoc(Pending(init), c);
    }
    assert Run(check, s, init + [c]) == Reaction(b.state, a.serial + b.serial) by {
      RunSnoc(check, s, init, c);
    }
    assert a.serial + [] == a.serial;
  }

  /**
   * Over any input, the running total is the starting total plus the
   * prices of the records matched by its complete lines, a tag scanned
   * twice counting twice.
   */
  lemma TotalIsSumOfSales(catalog: seq<Product>, s: State, input: string)
    requires s.buf == []
    ensures Run(Firmware(catalog), s, input).state.total == s.total + Sales(catalog, Lines(input))
  {
    RunIsReplay(Firmware(catalog), s, input);
    ReplayTotal(catalog, s.total, s.display, Lines(input));
  }

  /**
   * Characters other than newline are only buffered: from an empty
   * buffer, a stretch without newline leaves its first twelve characters
   * buffered and sends nothing.
   */
  lemma {:induction false} FeedLine(check: Checker, s: State, line: string)
    requires s.buf == [] && Newline !in line
    ensures Run(check, s, line) == Reaction(s.(buf := Truncate(line)), [])
    decreases |line|
  {
    if line != [] {
      var init := line[..|line| - 1];
      var c := line[|line| - 1];
      assert line == init + [c];
      FeedLine(check, s, init);
      RunSnoc(check, s, init, c);
      TruncateSnoc(init, c);
    }
  }

  /**
   * One line from an empty buffer: what is dispatched is the first
   * min(n, 12) characters of the line (up to a NUL among them), and the
   * buffer is empty afterwards.
   */
  lemma LineDispatch(check: Checker, s: State, line: string)
    requires s.buf == [] && Newline !in line
    ensures var o := check(s.total, Key(Truncate(line)));
      Run(check, s, line + [Newline]) == Reaction(After(o), o.serial)
  {
    FeedLine(check, s, line);
    RunSnoc(check, s, line, Newline);
  }

  /** A buffer with a NUL written at `i` reads, as a C string, as the key of its first `i` characters. */
  lemma TerminatedKey(a: seq<char>, i: nat)
    requires i < |a| && a[i] == NUL
    ensures CStr(a) == Key(a[..i])
  {
    assert a == a[..i] + [NUL] + a[i + 1..];
    CStrStopsAtNul(a[..i], a[i + 1..]);
    CStrStopsAtNul(a[..i], []);
    assert a[..i] + [NUL] + [] == a[..i] + [NUL];
  }

  /** Running on one more character of `input` is one more `Step`. */
  lemma RunTake(check: Checker, input: string, k: nat)
    requires k < |input|
    ensures var a := Run(check, Start, input[..k]); var b := Step(check, a.state, input[k]);
      Run(check, Start, input[..k + 1]) == Reaction(b.state, a.serial + b.serial)
  {
    assert input[..k + 1] == input[..k] + [input[k]];
    RunSnoc(check, Start, input[..k], input[k]);
  }

  /**
   * The loop as the C code writes it: the 13-slot local `rfid_buffer`,
   * whose initial contents `uninitialized` are indeterminate, an index
   * that is only written through while below 12, and the terminator
   * written at an index of at most 12. Whatever the buffer held at first,
   * the loop produces exactly what `Run` describes.
   */
  method MainLoop(check: Checker, input: string, uninitialized: seq<char>)
    returns (total: nat, pending: string, display: string, serial: string)
    requires |uninitialized| == RfidLength + 1
    ensures Run(check, Start, input) == Reaction(State(total, pending, display), serial)
  {
    var buffer := uninitialized;
    var index := 0;
    total, display, serial := 0, [], [];
    var k := 0;
    while k < |input|
      invariant 0 <= k <= |input|
      invariant |buffer| == RfidLength + 1 && 0 <= index <= RfidLength
      invariant Run(check, Start, input[..k]) == Reaction(State(total, buffer[..index], display), serial)
    {
      var c := input[k];
      RunTake(check, input, k);
      if c != Newline && index < RfidLength {
        assert buffer[index := c][..index + 1] == buffer[..index] + [c];
        buffer := buffer[index := c];
        index := index + 1;
      } else if c == Newline {
        ghost var key := Key(buffer[..index]);
        buffer := buffer[index := NUL];
        TerminatedKey(buffer, index);
        assert CStr(buffer) == key;
        var o := check(total, CStr(buffer));
        total, display, serial := o.total, o.display, serial + o.serial;
        index := 0;
      }
      k := k + 1;
    }
    assert input[..k] == input;
    pending := buffer[..index];
  }
}

=== FILE: scenarios.dfy ===
/** The firmware's behaviour on a product table, and on its own table for particular inputs. */
module Scenarios {
  import opened Options
  import opened CStrings
  import opened Format
  import opened Catalog
  import opened Checkout
  import opened Reader

  /**
   * A record whose identifier the reader can deliver whole on one line:
   * it fills the buffer exactly (twelve characters), holds no NUL to cut
   * the key short and no newline to end the line early. These are the
   * tag conditions of `Fits` narrowed to full length, plus the newline
   * condition that only the reader cares about.
   */
  predicate Scannable(p: Product) {
    |p.rfid| == RfidLength && NUL !in p.rfid && Newline !in p.rfid
  }

  lemma ProductsScannable()
    ensures forall i :: 0 <= i < |Products| ==> Scannable(Products[i])
  {
    ProductTagsFit();
    ProductTagsHaveNoNul();
  }

  /** Scanning a record's tag, from an empty buffer, sells that record. */
  lemma ScanKnownTag(catalog: seq<Product>, s: State, i: nat)
    requires Distinct(catalog) && i < |catalog| && Scannable(catalog[i]) && s.buf == []
    ensures var o := Report(catalog, s.total, Some(i));
      Run(Firmware(catalog), s, catalog[i].rfid + [Newline]) == Reaction(After(o), o.serial)
  {
    var p := catalog[i];
    assert CheckAndAdd(catalog, s.total, p.rfid) == Report(catalog, s.total, Some(i)) by {
      LookupUnique(catalog, p.rfid, i);
    }
    LineDispatch(Firmware(catalog), s, p.rfid);
    assert Truncate(p.rfid) == p.rfid;
    KeyIsBufferWithoutNul(p.rfid);
  }

  /** A line that matches no identifier reports "Unknown RFID Tag" and keeps the total. */
  lemma ScanUnknownLine(catalog: seq<Product>, s: State, line: string)
    requires s.buf == [] && Newline !in line
    requires forall i :: 0 <= i < |catalog| ==> catalog[i].rfid != Key(Truncate(line))
    ensures Run(Firmware(catalog), s, line + [Newline]) ==
      Reaction(State(s.total, [], UnknownTag), UnknownTag + "\n")
  {
    CheckAndAddRejects(catalog, s.total, Key(Truncate(line)));
    LineDispatch(Firmware(catalog), s, line);
  }

  lemma FmtExamples()
    ensures Fmt(150) == "1.50" && Fmt(75) == "0.75" && Fmt(225) == "2.25"
  {
    assert Numeral(0) == "0" && Numeral(1) == "1" && Numeral(2) == "2";
    assert Fmt(150) == "1" + "." + ['5', '0'];
    assert Fmt(75) == "0" + "." + ['7', '5'];
    assert Fmt(225) == "2" + "." + ['2', '5'];
  }

  /** Display left by selling Milk on an empty total. */
  const AfterMilk := State(150, [], MatchDisplay("Milk", "1.50", "1.50"))

  lemma ScanMilk()
    ensures Run(Firmware(Products), Start, "123456789ABC\n") ==
      Reaction(AfterMilk, MatchSerial("Milk", "1.50"))
  {
    assert Fmt(150) == "1.50" by { FmtExamples(); }
    ProductsShape();
    ProductsScannable();
    assert Report(Products, 0, Some(0)) ==
      Outcome(150, MatchSerial("Milk", "1.50"), MatchDisplay("Milk", "1.50", "1.50"));
    ScanKnownTag(Products, Start, 0);
    assert "123456789ABC\n" == Products[0].rfid + [Newline];
  }

  lemma ScanBreadAfterMilk()
    ensures Run(Firmware(Products), AfterMilk, "23456789ABCD\n") ==
      Reaction(State(225, [], MatchDisplay("Bread", "0.75", "2.25")), MatchSerial("Bread", "2.25"))
  {
    assert Fmt(75) == "0.75" && Fmt(225) == "2.25" by { FmtExamples(); }
    ProductsShape();
    ProductsScannable();
    assert Report(Products, 150, Some(1)) ==
      Outcome(225, MatchSerial("Bread", "2.25"), MatchDisplay("Bread", "0.75", "2.25"));
    ScanKnownTag(Products, AfterMilk, 1);
    assert "23456789ABCD\n" == Products[1].rfid + [Newline];
  }

  /**
   * Milk then Bread: two match reports. The serial report for Bread shows
   * the new total 2.25 on both its Price and Total lines, while the LCD text
   * carries Bread's own price 0.75.
   */
  lemma MilkThenBread()
    ensures var r := Run(Firmware(Products), Start, "123456789ABC\n" + "23456789ABCD\n");
      && r.state == State(225, [], MatchDisplay("Bread", "0.75", "2.25"))
      && r.serial == MatchSerial("Milk", "1.50") + MatchSerial("Bread", "2.25")
  {
    ScanMilk();
    ScanBreadAfterMilk();
    RunAppend(Firmware(Products), Start, "123456789ABC\n", "23456789ABCD\n");
  }

  /** A tag that is not in the table: "Unknown RFID Tag" once, total still zero. */
  lemma UnknownTagLeavesTotal()
    ensures Run(Firmware(Products), Start, "000000000000" + "\n") ==
      Reaction(State(0, [], "Unknown RFID Tag"), "Unknown RFID Tag\n")
  {
    var line := "000000000000";
    assert Truncate(line) == line && Key(line) == line by {
      KeyIsBufferWithoutNul(line);
    }
    forall i | 0 <= i < |Products|
      ensures Products[i].rfid != line
    {
      assert Products[i].rfid[0] != line[0];
    }
    ScanUnknownLine(Products, Start, line);
  }

  /** Scanning the same tag twice sells it twice: there is no deduplication. */
  lemma RescanAddsTwice(catalog: seq<Product>, s: State, i: nat)
    requires Distinct(catalog) && i < |catalog| && Scannable(catalog[i]) && s.buf == []
    ensures var id := catalog[i].rfid;
      Run(Firmware(catalog), s, id + [Newline] + id + [Newline]).state.total
      == s.total + 2 * catalog[i].price
  {
    var line := catalog[i].rfid + [Newline];
    assert catalog[i].rfid + [Newline] + catalog[i].rfid + [Newline] == line + line;
    RunAppend(Firmware(catalog), s, line, line);
    ScanKnownTag(catalog, s, i);
    ScanKnownTag(catalog, After(Report(catalog, s.total, Some(i))), i);
  }

  /**
   * A line longer than twelve characters is cut to its first twelve, so
   * a known tag followed by stray characters still sells that record.
   */
  lemma OverlongLineSellsItsPrefix(catalog: seq<Product>, s: State, i: nat, extra: string)
    requires Distinct(catalog) && i < |catalog| && Scannable(catalog[i]) && Newline !in extra
    requires s.buf == []
    ensures Run(Firmware(catalog), s, catalog[i].rfid + extra + [Newline]).state.total
            == s.total + catalog[i].price
  {
    var p := catalog[i];
    var line := p.rfid + extra;
    assert Newline !in line;
    assert CheckAndAdd(catalog, s.total, p.rfid).total == s.total + p.price by {
      CheckAndAddSells(catalog, s.total, i);
    }
    LineDispatch(Firmware(catalog), s, line);
    assert Truncate(line) == p.rfid;
    KeyIsBufferWithoutNul(p.rfid);
  }

  /** A correct prefix of a known tag is not a match: the total is unchanged. */
  lemma PrefixDoesNotSell(s: State, i: nat, n: nat)
    requires i < |Products| && n < RfidLength && s.buf == []
    ensures Run(Firmware(Products), s, Products[i].rfid[..n] + [Newline]).state.total == s.total
  {
    ProductsScannable();
    var line := Products[i].rfid[..n];
    assert Newline !in line;
    assert Truncate(line) == line;
    KeyIsBufferWithoutNul(line);
    ProductsShape();
    ScanUnknownLine(Products, s, line);
  }

  /** `s` written `n` times over. */
  function Repeat(s: string, n: nat): (r: string)
    ensures |r| == n * |s|
  {
    if n == 0 then [] else Repeat(s, n - 1) + s
  }

  /**
   * As written, replaying any lines on the firmware's own table sells
   * nothing: each line gets the unknown-tag report.
   */
  lemma {:induction false} AsWrittenReplay(total: nat, display: string, lines: seq<string>)
    ensures Replay(AsWrittenFirmware(), total, display, lines) ==
      Outcome(total, Repeat(UnknownTag + "\n", |lines|), if lines == [] then display else UnknownTag)
    decreases |lines|
  {
    if lines != [] {
      var init := lines[..|lines| - 1];
      var key := Key(Truncate(lines[|lines| - 1]));
      AsWrittenReplay(total, display, init);
      KeyLength(Truncate(lines[|lines| - 1]));
      assert AsWrittenCheckAndAdd(total, key) == Outcome(total, UnknownTag + "\n", UnknownTag);
    }
  }

  /**
   * As written, the firmware never sells anything: whatever it receives,
   * the total stays zero and every complete line is answered with
   * "Unknown RFID Tag".
   */
  lemma AsWrittenSellsNothing(input: string)
    ensures var r := Run(AsWrittenFirmware(), Start, input);
      && r.state.total == 0
      && r.serial == Repeat(UnknownTag + "\n", |Lines(input)|)
  {
    var o := Replay(AsWrittenFirmware(), 0, [], Lines(input));
    assert o.total == 0 && o.serial == Repeat(UnknownTag + "\n", |Lines(input)|) by {
      AsWrittenReplay(0, [], Lines(input));
    }
    assert Replays(AsWrittenFirmware(), Start, input) by {
      RunIsReplay(AsWrittenFirmware(), Start, input);
    }
  }
}
